=== FILE: README.md ===
# Meeting-bot transcription task and bot pod creator, in Dafny

This project models two parts of a meeting-recording bot service and proves properties of them.

1. **The utterance-processing task** (`process_utterance_task.dfy`, module `ProcessUtteranceTask`).
   An utterance is one transcribable piece of audio of a recording. Each delivery of the task for an utterance does the following:
   - it returns at once when a failure is already recorded (the re-delivery guard);
   - otherwise, when no transcription exists yet, it increments the attempt counter and calls the transcription provider's adapter;
   - a failure is retried while the new count is below 5 and the reason is one of five retryable reasons; any other failure is stored as terminal;
   - on success it clears the utterance's inline audio and, unless the bot keeps chunks for async transcription, the audio chunk's audio, then stores the transcription;
   - it triggers a transcript-update webhook for non-empty text of a non-async utterance;
   - for a non-async utterance it finally marks the recording's transcription complete when the recording's state is terminal and no utterance of it is left without a transcription.

   The utterance, its audio chunk, its recording and the recording's bot are classes. The task body is the method `ProcessUtterance`, proved against `TaskEffects`, a function over a snapshot of the fields the task writes. The adapter's behaviour is a parameter (`AdapterResult`). The webhook is an event appended to the bot's `webhookEvents`.

2. **The bot pod creator** (`bot_pod_creator.dfy`, module `BotPodCreator`).
   - The creator's fields are assigned once, from the environment; a missing or empty release version raises. This is `NewCreator`, returning a `Result`. Its value has the type `Creator`, whose values all carry a non-empty version, an instance derived from that version and an image tagged with it, and `BuildJob`, `CreateBotPod` and `DeleteRequest` take only that type.
   - `BuildJob` is the Kubernetes Job submitted for a bot: its name, labels, image, command, resources, secret references, restart policy, grace period, tolerations and backoff limit.
   - `CreateBotPod` and `DeleteBotPod` give the result dictionaries for the cluster's answer, which is a parameter.

   Environment variables are `Option<string>` fields of `Env`. The random eight-hex-digit name suffix is a parameter.

`strings.dfy` (module `Strings`) holds Python's `str.split` on one character with its inverse `join`, and `str(n)` for integers: a natural number renders as decimal digits without a leading zero, parsing that rendering gives the number back, and distinct integers render differently. `wrappers.dfy` holds `Option` and `Result`.

### Behaviour as coded

The model follows the code as written, including these behaviours that a reader might not expect:

- **Failed utterances block completion.** An utterance that failed terminally keeps a `None` transcription. The completion query counts utterances with a `None` transcription, so such an utterance keeps its recording from ever completing. A failed utterance is therefore never treated as resolved. See `FailedUtteranceBlocksCompletion`.
- **Async utterances are counted.** The completion query counts async utterances too, although async utterances never run the check themselves.
- **Deleting a missing pod fails.** `delete_bot_pod` reports an already-deleted pod (HTTP 404) as `deleted: False`, like any other API error. It also deletes a pod, not the job. A pod that is already gone is not treated as deleted. See `NotFoundIsReportedAsFailure`.
- **The `.get` on `None` crash.** An adapter may return neither a transcription nor a failure. The task then clears the audio and stores `None` as the transcription. Line 95 then raises on `None.get`, so there is no webhook and no completion check. This is the `Crashed` outcome.
- **Truthiness tests.** `failure_data` is tested for truthiness, so an empty dictionary counts as "no failure". `os.getenv(name, default)` keeps a variable that is set but empty; only `CUBER_RELEASE_VERSION` is tested for emptiness.
- **Two defaults for one variable.** `K8S_DOCKER_SECRETS` names both the third environment source and the image-pull secret. Its defaults differ: "docker-secrets" for the source and "app-secrets" for the pull secret.

## Model

| member | source | states |
|---|---|---|
| `ProcessUtteranceTask.IsRetryableFailure` | bots/tasks/process_utterance_task.py:13-20 | retryable exactly when the reason is present and is one of the five named reasons; a missing or other reason is not retryable |
| `ProcessUtteranceTask.GetTranscription` | bots/tasks/process_utterance_task.py:23-42 | never raises: an unknown provider or an adapter exception yields no transcription and an internal-error failure (retryable) carrying the exception text; otherwise the adapter's pair is passed through |
| `ProcessUtteranceTask.TaskEffects` | bots/tasks/process_utterance_task.py:58-104 | recorded failure: nothing changes. Counter: +1 exactly when `get_transcription` is called (no failure and no transcription recorded yet, `Attempts`), also for an unknown provider; never down. Existing transcription: kept. Retry: exactly when new count < 5 and retryable, saving only the count. Terminal failure: stored, audio kept, task stops. An attempted call whose answer carries no failure ends in `Done`, or in `Crashed` when the transcription is missing. Success: audio cleared, chunk cleared only if present and not kept for async, transcription stored; at most one webhook, only for non-empty text of a non-async utterance. Only non-async successes reach the completion check. A record that does not hold both a transcription and a failure still does not after the run (consistency is preserved). |
| `ProcessUtteranceTask.ProcessUtterance` | bots/tasks/process_utterance_task.py:52-108 | for an utterance listed in its recording, whose listed utterances all belong to it: the method's outcome, the utterance's fields, the chunk's audio and the bot's webhook events are what `TaskEffects` says; the completion flag is re-evaluated over the recording's current utterances exactly when `TaskEffects` reaches the check; the recording's state and utterance list do not change; nothing outside the utterance, chunk, recording and bot changes |
| `ProcessUtteranceTask.ReasonlessFailureIsTerminal` | bots/tasks/process_utterance_task.py:67-74 | a failure dictionary with no `reason` but some other entry is truthy and not retryable: it is stored at once as a terminal failure, the audio is kept and no webhook fires |
| `ProcessUtteranceTask.RedeliveryAfterFailure` | bots/tasks/process_utterance_task.py:58-60 | delivering the task again after a terminal failure is a no-op, whatever the adapter would answer |
| `ProcessUtteranceTask.RedeliveryAfterTranscription` | bots/tasks/process_utterance_task.py:62-65 | delivering the task again after a transcription was stored keeps it, clears nothing, fires no webhook and only re-runs the completion check |
| `ProcessUtteranceTask.DeliveriesStep` | bots/tasks/process_utterance_task.py:52-65 | in a sequence of deliveries each delivery runs the task body on the record the previous one left |
| `ProcessUtteranceTask.AttemptCountNeverDecreases` | bots/tasks/process_utterance_task.py:62-63 | along any sequence of deliveries the attempt count never decreases and grows by at most one per delivery |
| `ProcessUtteranceTask.FailureIsTerminal` | bots/tasks/process_utterance_task.py:58-60 | after a delivery that fails terminally every later delivery is skipped, fires no webhook and leaves the record unchanged |
| `ProcessUtteranceTask.RetriesAreBounded` | bots/tasks/process_utterance_task.py:67-70 | whatever the adapter answers, the task raises the retry signal at most 4 − count times from a given count (at most four times from zero) |
| `ProcessUtteranceTask.SettledRecordIsStable` | bots/tasks/process_utterance_task.py:58-65 | once an utterance has a failure or a transcription, further deliveries leave its record as it is, clear nothing and fire no webhook |
| `ProcessUtteranceTask.AtMostOneWebhook` | bots/tasks/process_utterance_task.py:94-100 | across any sequence of deliveries to one utterance at most one delivery triggers a webhook |
| `ProcessUtteranceTask.CountPending` | bots/tasks/process_utterance_task.py:107 | the count of utterances without a transcription never exceeds the number of utterances; `NoPendingIff` pins down when it is zero |
| `ProcessUtteranceTask.NoPendingIff` | bots/tasks/process_utterance_task.py:107 | the count of utterances without a transcription is zero exactly when every utterance has one |
| `ProcessUtteranceTask.CompletionCheck` | bots/tasks/process_utterance_task.py:106-108 | the flag afterwards is set exactly when it was already set, or the state is terminal and every utterance has a transcription |
| `ProcessUtteranceTask.CompletionCheckIdempotent` | bots/tasks/process_utterance_task.py:106-108 | running the completion check again leaves the flag as it is |
| `ProcessUtteranceTask.FailedUtteranceBlocksCompletion` | bots/tasks/process_utterance_task.py:71-76 | as coded, an utterance without a transcription (one that failed terminally, for instance) keeps the recording from completing |
| `ProcessUtteranceTask.CompletesExactlyAtLast` | bots/tasks/process_utterance_task.py:102-108 | with the recording already terminal, when its pending utterances are transcribed one at a time in any order, the flag becomes set at the last of them and not before |
| `ProcessUtteranceTask.Recording.MaybeCompleteTranscription` | bots/tasks/process_utterance_task.py:106-108 | the completion flag becomes `CompletionCheck` of the recording's state, its previous value and its utterances' current transcriptions; nothing else changes |
| `ProcessUtteranceTask.TranscribeLastPending` | bots/tasks/process_utterance_task.py:78-108 | in a terminal recording whose other utterances all have transcriptions, transcribing the last pending one (known provider, non-empty text; every listed utterance belongs to the recording) ends in `Done`; when it is not async it fires exactly one transcript webhook and completes the recording; when it is async it fires none and leaves the completion flag as it was |
| `ProcessUtteranceTask.TimeoutsUntilTerminal` | bots/tasks/process_utterance_task.py:62-76 | a time-out on the fourth attempt retries with count 4 and no failure stored; a time-out on the fifth is terminal and keeps the audio; a further delivery is skipped |
| `BotPodCreator.GetEnv` | bots/bot_pod_creator/bot_pod_creator.py:20 | an environment lookup returns the default only when the variable is unset |
| `BotPodCreator.NewCreator` | bots/bot_pod_creator/bot_pod_creator.py:10-29 | fails with the ValueError text exactly when the release version is missing or empty; otherwise sets the namespace, app name and version, the instance `app + "-" + last dash segment of the version`, and the image `(BOT_POD_IMAGE or "nduncan<app>/<app>") + ":" + version` |
| `BotPodCreator.InstanceIdentity` | bots/bot_pod_creator/bot_pod_creator.py:26-27 | the instance is the app name and a dash, followed by the longest dash-free suffix of the version; a version without a dash is used whole |
| `BotPodCreator.ImageEndsWithVersion` | bots/bot_pod_creator/bot_pod_creator.py:28-29 | the image always ends with ":" and the version |
| `BotPodCreator.BotName` | bots/bot_pod_creator/bot_pod_creator.py:44-45 | an explicit name is used verbatim; otherwise the name is "bot-", the decimal id, "-" and the eight-digit suffix |
| `BotPodCreator.GeneratedNamesAreDistinct` | bots/bot_pod_creator/bot_pod_creator.py:44-45 | generated names differ whenever the bot ids or the random suffixes differ |
| `BotPodCreator.Labels` | bots/bot_pod_creator/bot_pod_creator.py:56-63 | exactly five labels: the app name, the instance, the version, managed-by "cuber" and app "bot-proc" |
| `BotPodCreator.CpuRequest` | bots/bot_pod_creator/bot_pod_creator.py:47-48 | the CPU request is the argument if given; otherwise BOT_CPU_REQUEST when it is set, and "4" when it is not |
| `BotPodCreator.BotCommand` | bots/bot_pod_creator/bot_pod_creator.py:50-53 | the command is `/bin/bash -c` with a script that runs the entrypoint and then `run_bot --botid` followed by the bot id in decimal |
| `BotPodCreator.BotCommandNamesTheBot` | bots/bot_pod_creator/bot_pod_creator.py:52-53 | distinct bot ids give distinct commands, so each pod runs the bot it was created for |
| `BotPodCreator.Resources` | bots/bot_pod_creator/bot_pod_creator.py:83-93 | requests hold cpu, memory and ephemeral storage; limits hold only memory and ephemeral storage (no CPU limit); each memory and ephemeral-storage entry is its environment variable when set, and otherwise "4Gi" for memory and "10Gi" for ephemeral storage |
| `BotPodCreator.Tolerations` | bots/bot_pod_creator/bot_pod_creator.py:121-134 | two NoExecute "Exists" tolerations, for not-ready and unreachable nodes, of 900 seconds each |
| `BotPodCreator.BuildJob` | bots/bot_pod_creator/bot_pod_creator.py:44-139 | the job carries the bot name, the creator's non-empty version label, the creator's namespace and the labels, with the same labels and no name or namespace on the pod template; one container "bot-proc" with the creator's image, pull policy "Always", the run-bot command and the resources; restart policy "Never", grace period 60, the two tolerations, backoff limit 4 |
| `BotPodCreator.EnvSources` | bots/bot_pod_creator/bot_pod_creator.py:94-119 | the container receives the config map, the app secrets and the docker secrets, each named by its environment variable when set and by its default otherwise, and no explicit env; the image-pull secret is K8S_DOCKER_SECRETS or "app-secrets" |
| `BotPodCreator.CreateRequest` | bots/bot_pod_creator/bot_pod_creator.py:141-145 | the create call names the creator's namespace, which is also the namespace in the job's metadata, and submits the job built for the bot under its bot name |
| `BotPodCreator.CreateBotPod` | bots/bot_pod_creator/bot_pod_creator.py:141-160 | never propagates an `ApiException`: on creation the result has the reported name, status "JobCreated", created true, the image, instance and version; on an API exception it has the bot name, status "Error", created false and the exception text |
| `BotPodCreator.DeleteRequest` | bots/bot_pod_creator/bot_pod_creator.py:162-168 | the delete targets the named pod in the creator's namespace with a 60-second grace period |
| `BotPodCreator.DeleteBotPod` | bots/bot_pod_creator/bot_pod_creator.py:162-174 | deleted exactly when the cluster deleted the pod; otherwise deleted false with the exception text |
| `BotPodCreator.NotFoundIsReportedAsFailure` | bots/bot_pod_creator/bot_pod_creator.py:170-174 | a not-found answer is reported as a failed delete; it is not special-cased |
| `Strings.Split` | bots/bot_pod_creator/bot_pod_creator.py:27 | a split has at least one part and no part holds the separator |
| `Strings.JoinSplit` | bots/bot_pod_creator/bot_pod_creator.py:27 | joining the parts of a split gives back the string |
| `Strings.SplitJoin` | bots/bot_pod_creator/bot_pod_creator.py:27 | splitting a join of separator-free parts gives back the parts |
| `Strings.LastPartIsLongestSuffix` | bots/bot_pod_creator/bot_pod_creator.py:27 | `s.split(sep)[-1]` is a separator-free suffix of `s` that is either all of `s` or preceded by the separator |
| `Strings.LastPartWithoutSeparator` | bots/bot_pod_creator/bot_pod_creator.py:27 | a string without the separator is its own last part |
| `Strings.NatToString` | bots/bot_pod_creator/bot_pod_creator.py:45 | a rendered natural number is a non-empty string of decimal digits whose first digit is 0 only for zero (Python's canonical `str(n)`, no leading zero) |
| `Strings.ParseNatToString` | bots/bot_pod_creator/bot_pod_creator.py:45 | parsing a rendered natural number gives it back |
| `Strings.IntToStringInjective` | bots/bot_pod_creator/bot_pod_creator.py:45 | distinct bot ids render as distinct strings |

## Left out

- Cluster configuration loading is not modelled: the in-cluster attempt with its fallback to a kube config file, and the API client objects (bots/bot_pod_creator/bot_pod_creator.py:11-16). These are foreign library calls.
- `create_namespaced_job` and `delete_namespaced_pod` are not modelled as calls. Their answers are parameters: `CreateJobAnswer`, `DeleteAnswer`.
- CreateBotPod: errors other than `ApiException` are not among the modelled answers. Examples are a connection failure to the API server, which the client raises as a urllib3 error. In the source these propagate out of `create_bot_pod` and `delete_bot_pod` (bots/bot_pod_creator/bot_pod_creator.py:154, :170 catch only `ApiException`).
- NewCreator: a failing `load_kube_config` is not modelled. In the source it raises from `__init__` before the version check, even when a version is set (bots/bot_pod_creator/bot_pod_creator.py:11-14).
- `uuid.uuid4()` is not modelled. The eight-digit suffix it yields is a parameter.
- `os.getenv` is not modelled. The environment is the `Env` parameter.
- The namespace default is read from the environment when the module is imported. The model reads it from the same `Env` as the other variables.
- The task engine's own retry policy is not modelled: the one-hour soft time limit, automatic retry on any exception, exponential backoff, and at most 6 retries. The model gives how each delivery ends (`Outcome`). `Deliveries` covers any number of re-deliveries, including ones the engine would not make.
- The provider adapters are not modelled. Their source bodies are placeholders; each adapter is the `AdapterResult` parameter.
- ORM persistence is not modelled: fetching the utterance, the individual `save()` calls, and the count query. Field writes take effect at once. A crash between two saves is not modelled. The count query is `CountPending` over the recording's utterances.
- `trigger_webhook` and the webhook payload are not modelled. A webhook is a `TranscriptUpdate` event carrying the stored transcription.
- `RecordingManager` is external. `is_terminal_state` is the recording's `stateIsTerminal` flag. `set_recording_transcription_complete` sets `transcriptionComplete`; any other effects it has are not modelled.
- Concurrent deliveries for different utterances of one recording are not modelled. Deliveries run one after another.
- A transcription dictionary is reduced to its `transcript` entry. A failure dictionary is reduced to its `reason` and `error` entries and one flag for any other key; the flag is enough for its truthiness, which is all the task reads of those keys.
- Unknown provider values and reasons other than the five retryable ones are kept opaque: `UnknownProvider(name)`, `OtherReason(code)`.
- Logging is not modelled.
- bots/tasks/run_bot_task.py (the bot-run task and process-group shutdown signalling) and the two settings files are not part of this model.

=== FILE: bot_pod_creator.dfy ===
/**
 * The deterministic part of the bot pod creator
 * (bots/bot_pod_creator/bot_pod_creator.py): the creator's identity derived
 * from the environment, the Kubernetes Job it submits for a bot, and the
 * result dictionaries of creating and deleting.
 *
 * Environment variables are `Option<string>` fields of `Env` (None when
 * unset); the random job-name suffix and the cluster's answers are parameters.
 */
module BotPodCreator {
  import opened Wrappers
  import opened Strings

  /** The environment variables the creator reads; `None` when a variable is unset. */
  datatype Env = Env(
    cuberNamespace: Option<string>,
    cuberAppName: Option<string>,
    cuberReleaseVersion: Option<string>,
    botPodImage: Option<string>,
    botCpuRequest: Option<string>,
    botMemoryRequest: Option<string>,
    botEphemeralStorageRequest: Option<string>,
    botMemoryLimit: Option<string>,
    botEphemeralStorageLimit: Option<string>,
    k8sConfig: Option<string>,
    k8sSecrets: Option<string>,
    k8sDockerSecrets: Option<string>)

  /** `os.getenv(name, default)`: the default only when the variable is unset; a set but empty value is kept. */
  function GetEnv(v: Option<string>, default: string): (r: string)
    ensures v.None? ==> r == default
    ensures v.Some? ==> r == v.value
  {
    v.GetOr(default)
  }

  /** The fields `__init__` assigns once; the API clients are outside this model. */
  datatype CreatorState = CreatorState(
    namespace: string,
    appName: string,
    appVersion: string,
    appInstance: string,
    image: string)

  /**
   * A constructed creator: `__init__` raises before any creator exists without
   * a release version, and derives the instance and the image tag from it.
   */
  type Creator = c: CreatorState |
    && c.appVersion != ""
    && c.appInstance == c.appName + "-" + LastPart(c.appVersion, '-')
    && |c.appVersion| < |c.image| && c.image[|c.image| - |c.appVersion| - 1..] == ":" + c.appVersion
    witness CreatorState("attendee", "attendee", "1", "attendee-1", "nduncanattendee/attendee:1")

  /** The text of the `ValueError` raised when the release version is missing. */
  const MissingVersionMessage := "CUBER_RELEASE_VERSION environment variable is required"

  /**
   * `BotPodCreator.__init__`: `namespace` is the explicit argument, if any. A
   * missing or empty release version raises, so no creator exists; otherwise the
   * instance is the app name, a dash and the last dash-separated segment of the
   * version, and the image is the image name (or its default) tagged with the version.
   */
  function NewCreator(namespace: Option<string>, env: Env): (r: Result<Creator, string>)
    ensures r.Failure? <==> env.cuberReleaseVersion.None? || env.cuberReleaseVersion.value == ""
    ensures r.Failure? ==> r.error == MissingVersionMessage
    ensures r.Success? ==>
      var c := r.value;
      && c.namespace == namespace.GetOr(GetEnv(env.cuberNamespace, "attendee"))
      && c.appName == GetEnv(env.cuberAppName, "attendee")
      && c.appVersion == env.cuberReleaseVersion.value && c.appVersion != ""
      && c.appInstance == c.appName + "-" + LastPart(c.appVersion, '-')
      && c.image == GetEnv(env.botPodImage, "nduncan" + c.appName + "/" + c.appName) + ":" + c.appVersion
  {
    var appName := GetEnv(env.cuberAppName, "attendee");
    match env.cuberReleaseVersion
    case None => Failure(MissingVersionMessage)
    case Some(version) =>
      if version == "" then Failure(MissingVersionMessage)
      else
        var appInstance := appName + "-" + LastPart(version, '-');
        var defaultPodImage := "nduncan" + appName + "/" + appName;
        var image := GetEnv(env.botPodImage, defaultPodImage) + ":" + version;
        Success(CreatorState(namespace.GetOr(GetEnv(env.cuberNamespace, "attendee")), appName, version, appInstance, image))
  }

  /**
   * The instance identity of a created creator ends with a dash and a
   * dash-free suffix of the version; a version without a dash is used whole.
   */
  lemma InstanceIdentity(namespace: Option<string>, env: Env)
    requires NewCreator(namespace, env).Success?
    ensures var c := NewCreator(namespace, env).value;
      var suffix := c.appInstance[|c.appName| + 1..];
      && c.appInstance[..|c.appName| + 1] == c.appName + "-"
      && '-' !in suffix
      && |suffix| <= |c.appVersion| && c.appVersion[|c.appVersion| - |suffix|..] == suffix
      && (|suffix| < |c.appVersion| ==> c.appVersion[|c.appVersion| - |suffix| - 1] == '-')
      && ('-' !in c.appVersion ==> suffix == c.appVersion)
  {
    var c := NewCreator(namespace, env).value;
    var last := LastPart(c.appVersion, '-');
    assert c.appInstance == (c.appName + "-") + last;
    assert c.appInstance[|c.appName| + 1..] == last;
    LastPartIsLongestSuffix(c.appVersion, '-');
    if '-' !in c.appVersion {
      LastPartWithoutSeparator(c.appVersion, '-');
    }
  }

  /** The image of a created creator always ends with a colon and the version. */
  lemma ImageEndsWithVersion(namespace: Option<string>, env: Env)
    requires NewCreator(namespace, env).Success?
    ensures var c := NewCreator(namespace, env).value;
      var tag := ":" + c.appVersion;
      |tag| <= |c.image| && c.image[|c.image| - |tag|..] == tag
  {
    var c := NewCreator(namespace, env).value;
    var base := GetEnv(env.botPodImage, "nduncan" + c.appName + "/" + c.appName);
    assert c.image == base + (":" + c.appVersion);
  }

  /** A lower-case hexadecimal digit, as `uuid4().hex` produces. */
  predicate IsHexDigit(c: char) {
    '0' <= c <= '9' || 'a' <= c <= 'f'
  }

  /** `uuid.uuid4().hex[:8]`: eight lower-case hexadecimal digits. */
  type NameSuffix = s: string | |s| == 8 && forall i :: 0 <= i < |s| ==> IsHexDigit(s[i])
    witness "00000000"

  /** The job name: the explicit name verbatim, or `bot-<id>-<suffix>`. */
  function BotName(botName: Option<string>, botId: int, suffix: NameSuffix): (name: string)
    ensures botName.Some? ==> name == botName.value
    ensures botName.None? ==>
      && |name| == 4 + |IntToString(botId)| + 1 + 8
      && name[..4] == "bot-" && name[4..|name| - 9] == IntToString(botId)
      && name[|name| - 9..] == "-" + suffix
  {
    match botName
    case Some(n) => n
    case None => "bot-" + IntToString(botId) + "-" + suffix
  }

  /** Generated names differ whenever the bot ids or the random suffixes differ. */
  lemma GeneratedNamesAreDistinct(id1: int, suffix1: NameSuffix, id2: int, suffix2: NameSuffix)
    requires id1 != id2 || suffix1 != suffix2
    ensures BotName(None, id1, suffix1) != BotName(None, id2, suffix2)
  {
    var n1 := BotName(None, id1, suffix1);
    var n2 := BotName(None, id2, suffix2);
    if n1 == n2 {
      assert ("-" + suffix1)[1..] == suffix1 && ("-" + suffix2)[1..] == suffix2;
      assert IntToString(id1) == IntToString(id2);
      IntToStringInjective(id1, id2);
    }
  }

  /** A resource quantity: the integer given as an argument, or a text quantity such as "4Gi". */
  datatype Quantity = Count(n: int) | Text(s: string)

  datatype ObjectMeta = ObjectMeta(name: Option<string>, namespace: Option<string>, labels: map<string, string>)

  datatype EnvFromSource = ConfigMapRef(name: string) | SecretRef(name: string)

  datatype ResourceRequirements = ResourceRequirements(requests: map<string, Quantity>, limits: map<string, Quantity>)

  datatype Container = Container(
    name: string,
    image: string,
    imagePullPolicy: string,
    command: seq<string>,
    resources: ResourceRequirements,
    envFrom: seq<EnvFromSource>,
    env: seq<(string, string)>)

  datatype Toleration = Toleration(key: string, operator: string, effect: string, tolerationSeconds: nat)

  datatype PodSpec = PodSpec(
    containers: seq<Container>,
    restartPolicy: string,
    imagePullSecrets: seq<string>,
    terminationGracePeriodSeconds: nat,
    tolerations: seq<Toleration>)

  datatype PodTemplateSpec = PodTemplateSpec(metadata: ObjectMeta, spec: PodSpec)

  datatype JobSpec = JobSpec(template: PodTemplateSpec, backoffLimit: nat)

  datatype Job = Job(metadata: ObjectMeta, spec: JobSpec)

  /** The five labels stamped on the job and on its pod template. */
  function Labels(c: Creator): (labels: map<string, string>)
    ensures labels.Keys == {"app.kubernetes.io/name", "app.kubernetes.io/instance", "app.kubernetes.io/version",
                            "app.kubernetes.io/managed-by", "app"}
    ensures labels["app.kubernetes.io/name"] == c.appName
    ensures labels["app.kubernetes.io/instance"] == c.appInstance
    ensures labels["app.kubernetes.io/version"] == c.appVersion
    ensures labels["app.kubernetes.io/managed-by"] == "cuber" && labels["app"] == "bot-proc"
  {
    map[
      "app.kubernetes.io/name" := c.appName,
      "app.kubernetes.io/instance" := c.appInstance,
      "app.kubernetes.io/version" := c.appVersion,
      "app.kubernetes.io/managed-by" := "cuber",
      "app" := "bot-proc"
    ]
  }

  /** The CPU request: the argument if given, else the environment, else "4". */
  function CpuRequest(botCpuRequest: Option<int>, env: Env): (q: Quantity)
    ensures botCpuRequest.Some? ==> q == Count(botCpuRequest.value)
    ensures botCpuRequest.None? && env.botCpuRequest.None? ==> q == Text("4")
    ensures botCpuRequest.None? && env.botCpuRequest.Some? ==> q == Text(env.botCpuRequest.value)
  {
    match botCpuRequest
    case Some(n) => Count(n)
    case None => Text(GetEnv(env.botCpuRequest, "4"))
  }

  /** What the container's shell runs before the bot id: the entrypoint script, then the bot runner. */
  const RunBotPrefix := "/opt/bin/entrypoint.sh && python manage.py run_bot --botid "

  /** The container command: run the entrypoint script, then the bot. */
  function BotCommand(botId: int): (cmd: seq<string>)
    ensures |cmd| == 3 && cmd[0] == "/bin/bash" && cmd[1] == "-c"
    ensures |RunBotPrefix| <= |cmd[2]| && cmd[2][..|RunBotPrefix|] == RunBotPrefix
    ensures cmd[2][|RunBotPrefix|..] == IntToString(botId)
  {
    var script := RunBotPrefix + IntToString(botId);
    assert script[..|RunBotPrefix|] == RunBotPrefix;
    ["/bin/bash", "-c", script]
  }

  /** The command names its bot: distinct bot ids give distinct commands. */
  lemma BotCommandNamesTheBot(a: int, b: int)
    requires BotCommand(a) == BotCommand(b)
    ensures a == b
  {
    IntToStringInjective(a, b);
  }

  /** Requests and limits: memory and ephemeral storage in both, CPU in the requests only. */
  function Resources(botCpuRequest: Option<int>, env: Env): (r: ResourceRequirements)
    ensures r.requests.Keys == {"cpu", "memory", "ephemeral-storage"}
    ensures r.limits.Keys == {"memory", "ephemeral-storage"}
    ensures r.requests["cpu"] == CpuRequest(botCpuRequest, env)
    ensures env.botMemoryRequest.None? ==> r.requests["memory"] == Text("4Gi")
    ensures env.botMemoryRequest.Some? ==> r.requests["memory"] == Text(env.botMemoryRequest.value)
    ensures env.botEphemeralStorageRequest.None? ==> r.requests["ephemeral-storage"] == Text("10Gi")
    ensures env.botEphemeralStorageRequest.Some? ==>
      r.requests["ephemeral-storage"] == Text(env.botEphemeralStorageRequest.value)
    ensures env.botMemoryLimit.None? ==> r.limits["memory"] == Text("4Gi")
    ensures env.botMemoryLimit.Some? ==> r.limits["memory"] == Text(env.botMemoryLimit.value)
    ensures env.botEphemeralStorageLimit.None? ==> r.limits["ephemeral-storage"] == Text("10Gi")
    ensures env.botEphemeralStorageLimit.Some? ==>
      r.limits["ephemeral-storage"] == Text(env.botEphemeralStorageLimit.value)
  {
    ResourceRequirements(
      map[
        "cpu" := CpuRequest(botCpuRequest, env),
        "memory" := Text(GetEnv(env.botMemoryRequest, "4Gi")),
        "ephemeral-storage" := Text(GetEnv(env.botEphemeralStorageRequest, "10Gi"))
      ],
      map[
        "memory" := Text(GetEnv(env.botMemoryLimit, "4Gi")),
        "ephemeral-storage" := Text(GetEnv(env.botEphemeralStorageLimit, "10Gi"))
      ])
  }

  /** The two tolerations: stay on a not-ready or unreachable node for 900 seconds. */
  function Tolerations(): (ts: seq<Toleration>)
    ensures |ts| == 2
    ensures forall t :: t in ts ==> t.operator == "Exists" && t.effect == "NoExecute" && t.tolerationSeconds == 900
    ensures ts[0].key == "node.kubernetes.io/not-ready" && ts[1].key == "node.kubernetes.io/unreachable"
  {
    [
      Toleration("node.kubernetes.io/not-ready", "Exists", "NoExecute", 900),
      Toleration("node.kubernetes.io/unreachable", "Exists", "NoExecute", 900)
    ]
  }

  /** The Job `create_bot_pod` submits for a bot. */
  function BuildJob(c: Creator, env: Env, botId: int, botName: Option<string>, botCpuRequest: Option<int>, suffix: NameSuffix): (job: Job)
    ensures job.metadata == ObjectMeta(Some(BotName(botName, botId, suffix)), Some(c.namespace), Labels(c))
    ensures job.spec.template.metadata.labels == job.metadata.labels
    ensures job.metadata.labels["app.kubernetes.io/version"] == c.appVersion
    ensures job.metadata.labels["app.kubernetes.io/version"] != ""
    ensures job.spec.template.metadata.name.None? && job.spec.template.metadata.namespace.None?
    ensures job.spec.backoffLimit == 4
    ensures var pod := job.spec.template.spec;
      && pod.restartPolicy == "Never"
      && pod.terminationGracePeriodSeconds == 60
      && pod.tolerations == Tolerations()
      && |pod.containers| == 1
      && pod.containers[0].name == "bot-proc"
      && pod.containers[0].image == c.image
      && pod.containers[0].imagePullPolicy == "Always"
      && pod.containers[0].command == BotCommand(botId)
      && pod.containers[0].resources == Resources(botCpuRequest, env)
      && "cpu" !in pod.containers[0].resources.limits
  {
    var labels := Labels(c);
    var container := Container(
      "bot-proc",
      c.image,
      "Always",
      BotCommand(botId),
      Resources(botCpuRequest, env),
      [
        ConfigMapRef(GetEnv(env.k8sConfig, "transcript-config")),
        SecretRef(GetEnv(env.k8sSecrets, "transcript-secrets")),
        SecretRef(GetEnv(env.k8sDockerSecrets, "docker-secrets"))
      ],
      []);
    var pod := PodSpec(
      [container],
      "Never",
      [GetEnv(env.k8sDockerSecrets, "app-secrets")],
      60,
      Tolerations());
    Job(
      ObjectMeta(Some(BotName(botName, botId, suffix)), Some(c.namespace), labels),
      JobSpec(PodTemplateSpec(ObjectMeta(None, None, labels), pod), 4))
  }

  /**
   * The configuration the pod receives: the config map, the app secrets and the
   * image-pull secrets as environment sources, and the image-pull secret. The
   * same variable K8S_DOCKER_SECRETS names the last two, with different defaults.
   */
  lemma EnvSources(c: Creator, env: Env, botId: int, botName: Option<string>, botCpuRequest: Option<int>, suffix: NameSuffix)
    ensures var container := BuildJob(c, env, botId, botName, botCpuRequest, suffix).spec.template.spec.containers[0];
      && |container.envFrom| == 3
      && container.envFrom[0].ConfigMapRef? && container.envFrom[1].SecretRef? && container.envFrom[2].SecretRef?
      && (env.k8sConfig.None? ==> container.envFrom[0].name == "transcript-config")
      && (env.k8sConfig.Some? ==> container.envFrom[0].name == env.k8sConfig.value)
      && (env.k8sSecrets.None? ==> container.envFrom[1].name == "transcript-secrets")
      && (env.k8sSecrets.Some? ==> container.envFrom[1].name == env.k8sSecrets.value)
      && (env.k8sDockerSecrets.None? ==> container.envFrom[2].name == "docker-secrets")
      && (env.k8sDockerSecrets.Some? ==> container.envFrom[2].name == env.k8sDockerSecrets.value)
      && container.env == []
      && var pullSecrets := BuildJob(c, env, botId, botName, botCpuRequest, suffix).spec.template.spec.imagePullSecrets;
      && pullSecrets == [GetEnv(env.k8sDockerSecrets, "app-secrets")]
      && (env.k8sDockerSecrets.Some? ==> pullSecrets[0] == container.envFrom[2].name)
  {
  }

  /** What the cluster did with the job: created it (under the name it reports) or raised an `ApiException` (its text). */
  datatype CreateJobAnswer = JobCreated(name: string) | CreateRejected(exception: string)

  /** The dictionary `create_bot_pod` returns; keys the dictionary lacks are `None`. */
  datatype CreateResult = CreateResult(
    name: string,
    status: string,
    created: bool,
    image: Option<string>,
    appInstance: Option<string>,
    appVersion: Option<string>,
    error: Option<string>)

  /** The call `create_bot_pod` makes: the namespace it names and the job it submits. */
  datatype CreateJobRequest = CreateJobRequest(namespace: string, body: Job)

  /**
   * `create_bot_pod` submits the job built for the bot in the creator's
   * namespace, which is also the namespace the job's own metadata names.
   */
  function CreateRequest(c: Creator, env: Env, botId: int, botName: Option<string>, botCpuRequest: Option<int>,
                         suffix: NameSuffix): (req: CreateJobRequest)
    ensures req.namespace == c.namespace
    ensures req.body.metadata.namespace == Some(req.namespace)
    ensures req.body.metadata.name == Some(BotName(botName, botId, suffix))
    ensures req.body == BuildJob(c, env, botId, botName, botCpuRequest, suffix)
  {
    CreateJobRequest(c.namespace, BuildJob(c, env, botId, botName, botCpuRequest, suffix))
  }

  /**
   * `create_bot_pod`: report the answer to `CreateRequest(...)`. An
   * `ApiException` is returned as a result, not raised.
   */
  function CreateBotPod(c: Creator, env: Env, botId: int, botName: Option<string>, botCpuRequest: Option<int>,
                        suffix: NameSuffix, answer: CreateJobAnswer): (r: CreateResult)
    ensures r.created <==> answer.JobCreated?
    ensures r.created ==>
      r == CreateResult(answer.name, "JobCreated", true, Some(c.image), Some(c.appInstance), Some(c.appVersion), None)
    ensures !r.created ==>
      r == CreateResult(BotName(botName, botId, suffix), "Error", false, None, None, None, Some(answer.exception))
  {
    match answer
    case JobCreated(name) =>
      CreateResult(name, "JobCreated", true, Some(c.image), Some(c.appInstance), Some(c.appVersion), None)
    case CreateRejected(exception) =>
      CreateResult(BotName(botName, botId, suffix), "Error", false, None, None, None, Some(exception))
  }

  /** The call `delete_bot_pod` makes. */
  datatype DeletePodRequest = DeletePodRequest(name: string, namespace: string, gracePeriodSeconds: nat)

  /** `delete_bot_pod` deletes the named pod in the creator's namespace with a 60-second grace period. */
  function DeleteRequest(c: Creator, podName: string): (req: DeletePodRequest)
    ensures req.name == podName && req.namespace == c.namespace && req.gracePeriodSeconds == 60
  {
    DeletePodRequest(podName, c.namespace, 60)
  }

  /** What the cluster did with the delete: deleted, or raised an `ApiException` with an HTTP status and text. */
  datatype DeleteAnswer = PodDeleted | DeleteRejected(status: int, exception: string)

  /** The dictionary `delete_bot_pod` returns. */
  datatype DeleteResult = DeleteResult(deleted: bool, error: Option<string>)

  /** `delete_bot_pod`: any `ApiException` is returned as `deleted: False` with its text. */
  function DeleteBotPod(answer: DeleteAnswer): (r: DeleteResult)
    ensures r.deleted <==> answer.PodDeleted?
    ensures r.deleted ==> r.error.None?
    ensures !r.deleted ==> r.error == Some(answer.exception)
  {
    match answer
    case PodDeleted => DeleteResult(true, None)
    case DeleteRejected(_, exception) => DeleteResult(false, Some(exception))
  }

  /** A pod that is already gone (HTTP 404) is reported as a failed delete, like any other rejection. */
  lemma NotFoundIsReportedAsFailure(exception: string)
    ensures !DeleteBotPod(DeleteRejected(404, exception)).deleted
  {
  }
}

=== FILE: process_utterance_task.dfy ===
/**
 * The utterance-processing task: failure classification, provider dispatch,
 * the per-utterance state machine and the recording-level completion check
 * (bots/tasks/process_utterance_task.py).
 *
 * The task body is `ProcessUtterance`, a method over the utterance, its audio
 * chunk, its recording and the recording's bot. What it does is specified by
 * `TaskEffects`, a function over a snapshot of the utterance's fields; the
 * lemmas about repeated deliveries and about the completion check are stated
 * on these functions.
 */
module ProcessUtteranceTask {
  import opened Wrappers

  type byte = b: int | 0 <= b < 256

  /** The value of `utterance.transcription_provider`; anything outside the six known providers is unknown. */
  datatype Provider = Deepgram | Gladia | OpenAI | AssemblyAI | Sarvam | ElevenLabs | UnknownProvider(name: string)

  /**
   * The `reason` of a failure. The five named reasons are the retryable ones;
   * `OtherReason` stands for every other reason value an adapter may report.
   */
  datatype FailureReason =
    | AudioUploadFailed
    | TranscriptionRequestFailed
    | TimedOut
    | RateLimitExceeded
    | InternalError
    | OtherReason(code: string)

  /**
   * A `failure_data` dictionary: its `reason` and `error` entries (a missing
   * key or a `None` value is `None`), and whether it holds any other key.
   */
  datatype FailureData = FailureData(reason: Option<FailureReason>, error: Option<string>, otherKeys: bool) {
    /** A dictionary is truthy when it holds at least one key. */
    predicate IsNonEmpty() {
      reason.Some? || error.Some? || otherKeys
    }
  }

  /** Python truthiness of an optional `failure_data`: present and non-empty. */
  predicate IsSet(f: Option<FailureData>) {
    f.Some? && f.value.IsNonEmpty()
  }

  /** A transcription dictionary, reduced to its `transcript` key. */
  datatype Transcription = Transcription(transcript: Option<string>) {
    /** `transcription.get("transcript")` is truthy: present and not the empty string. */
    predicate HasText() {
      transcript.Some? && transcript.value != ""
    }
  }

  /**
   * What the selected provider adapter did for one call: returned a
   * `(transcription, failure_data)` pair, or raised an exception whose text is given.
   */
  datatype AdapterResult =
    | Returned(transcription: Option<Transcription>, failure: Option<FailureData>)
    | Threw(message: string)

  /** Attempts at or beyond this count never retry. */
  const MaxAttempts: nat := 5

  const RetryableReasons: set<FailureReason> :=
    {AudioUploadFailed, TranscriptionRequestFailed, TimedOut, RateLimitExceeded, InternalError}

  /** `is_retryable_failure`: the reason is one of the five named reasons; a missing or other reason is not retryable. */
  function IsRetryableFailure(f: FailureData): (r: bool)
    ensures r <==> f.reason.Some? && !f.reason.value.OtherReason?
  {
    f.reason.Some? && f.reason.value in RetryableReasons
  }

  /** The text of the exception raised for an unknown provider. */
  function UnknownProviderMessage(p: Provider): string
    requires p.UnknownProvider?
  {
    "Unknown transcription provider: " + p.name
  }

  /**
   * `get_transcription`: dispatch to the provider's adapter. It never raises:
   * an unknown provider or an adapter exception becomes an internal-error failure.
   */
  function GetTranscription(provider: Provider, adapter: AdapterResult): (r: (Option<Transcription>, Option<FailureData>))
    ensures provider.UnknownProvider? ==>
      r == (None, Some(FailureData(Some(InternalError), Some(UnknownProviderMessage(provider)), false)))
    ensures !provider.UnknownProvider? && adapter.Threw? ==>
      r == (None, Some(FailureData(Some(InternalError), Some(adapter.message), false)))
    ensures provider.UnknownProvider? || adapter.Threw? ==> IsSet(r.1) && IsRetryableFailure(r.1.value)
    ensures !provider.UnknownProvider? && adapter.Returned? ==> r == (adapter.transcription, adapter.failure)
  {
    if provider.UnknownProvider? then
      (None, Some(FailureData(Some(InternalError), Some(UnknownProviderMessage(provider)), false)))
    else
      match adapter
      case Returned(t, f) => (t, f)
      case Threw(message) => (None, Some(FailureData(Some(InternalError), Some(message), false)))
  }

  /** The retry decision after a failed attempt: the count is below the ceiling and the reason is retryable. */
  predicate ShouldRetry(attemptCount: nat, f: FailureData) {
    attemptCount < MaxAttempts && IsRetryableFailure(f)
  }

  /** The utterance fields the task writes. */
  datatype UtteranceRecord = UtteranceRecord(
    transcription: Option<Transcription>,
    failureData: Option<FailureData>,
    attemptCount: nat,
    audioBlob: seq<byte>)

  /** A transcription and a failure are never both recorded. */
  predicate Consistent(r: UtteranceRecord) {
    !(r.transcription.Some? && IsSet(r.failureData))
  }

  /** The task will call the provider: no failure is recorded and no transcription exists yet. */
  predicate Attempts(r: UtteranceRecord) {
    !IsSet(r.failureData) && r.transcription.None?
  }

  /** What the task reads but never writes. */
  datatype Setting = Setting(
    provider: Provider,
    hasAudioChunk: bool,
    botRecordsAsyncChunks: bool,
    isAsync: bool)

  /** A webhook the task triggers. */
  datatype WebhookEvent = TranscriptUpdate(transcription: Transcription)

  /**
   * How the task body ends: it returns early (`Skipped`), raises the retry
   * signal (`Retry`), stores a terminal failure (`Failed`), raises because the
   * adapter returned neither a transcription nor a failure (`Crashed`: line 95
   * calls `.get` on `None`), or finishes (`Done`).
   */
  datatype Outcome = Skipped | Retry(failure: FailureData) | Failed(failure: FailureData) | Crashed | Done

  /** Everything one run of the task body does, apart from the completion check itself. */
  datatype Effects = Effects(
    record: UtteranceRecord,
    clearsChunkAudio: bool,
    webhooks: seq<WebhookEvent>,
    outcome: Outcome,
    checksCompletion: bool)

  /** The task body on a snapshot of the utterance, given what the adapter does if it is called. */
  function TaskEffects(r: UtteranceRecord, s: Setting, adapter: AdapterResult): (e: Effects)
    // re-delivery guard: a recorded failure makes the task a no-op
    ensures IsSet(r.failureData) ==>
      e.record == r && e.outcome == Skipped && !e.clearsChunkAudio && e.webhooks == [] && !e.checksCompletion
    // the counter moves up by one exactly when `get_transcription` is called (`Attempts(r)`), and never down
    ensures e.record.attemptCount == if Attempts(r) then r.attemptCount + 1 else r.attemptCount
    // an existing transcription is kept and nothing is cleared or announced
    ensures !Attempts(r) ==> e.record == r && !e.clearsChunkAudio && e.webhooks == []
    ensures !IsSet(r.failureData) && r.transcription.Some? ==> e.outcome == Done
    // after a failed call: retry exactly when the new count is below the ceiling and the reason is retryable
    ensures var f := GetTranscription(s.provider, adapter).1;
      Attempts(r) && IsSet(f) ==>
        (e.outcome.Retry? || e.outcome.Failed?) && e.outcome.failure == f.value &&
        (e.outcome.Retry? <==> ShouldRetry(r.attemptCount + 1, f.value))
    // the retry branch saves only the count
    ensures e.outcome.Retry? ==>
      e.record == r.(attemptCount := r.attemptCount + 1) &&
      e.record.attemptCount < MaxAttempts && IsRetryableFailure(e.outcome.failure) &&
      !e.clearsChunkAudio && e.webhooks == [] && !e.checksCompletion
    ensures r.attemptCount + 1 >= MaxAttempts ==> !e.outcome.Retry?
    // an answer without a failure ends the run: Done with text stored, or Crashed on a missing transcription
    ensures var (t, f) := GetTranscription(s.provider, adapter);
      Attempts(r) && !IsSet(f) ==> e.outcome == (if t.None? then Crashed else Done)
    // a terminal failure is stored, the audio is kept, and the task stops
    ensures e.outcome.Failed? ==>
      e.record == r.(attemptCount := r.attemptCount + 1, failureData := Some(e.outcome.failure)) &&
      IsSet(e.record.failureData) && !e.clearsChunkAudio && e.webhooks == [] && !e.checksCompletion
    // a successful call stores the transcription and clears the audio
    ensures Attempts(r) && (e.outcome.Done? || e.outcome.Crashed?) ==>
      e.record == r.(attemptCount := r.attemptCount + 1, audioBlob := [],
                     transcription := GetTranscription(s.provider, adapter).0) &&
      e.clearsChunkAudio == (s.hasAudioChunk && !s.botRecordsAsyncChunks)
    ensures e.outcome.Crashed? ==> e.record.transcription.None? && e.webhooks == [] && !e.checksCompletion
    ensures Attempts(r) && e.outcome.Done? ==> e.record.transcription.Some?
    // at most one webhook, only for new non-empty text of a non-async utterance
    ensures e.webhooks != [] <==>
      Attempts(r) && e.outcome.Done? && e.record.transcription.value.HasText() && !s.isAsync
    ensures e.webhooks != [] ==> e.webhooks == [TranscriptUpdate(e.record.transcription.value)]
    // only finished, non-async runs reach the completion check
    ensures e.checksCompletion <==> e.outcome.Done? && !s.isAsync
    ensures Consistent(r) ==> Consistent(e.record)
  {
    if IsSet(r.failureData) then
      Effects(r, false, [], Skipped, false)
    else if r.transcription.Some? then
      Effects(r, false, [], Done, !s.isAsync)
    else
      var count := r.attemptCount + 1;
      var (transcription, failure) := GetTranscription(s.provider, adapter);
      if IsSet(failure) then
        if ShouldRetry(count, failure.value) then
          Effects(r.(attemptCount := count), false, [], Retry(failure.value), false)
        else
          Effects(r.(attemptCount := count, failureData := failure), false, [], Failed(failure.value), false)
      else
        var saved := r.(attemptCount := count, audioBlob := [], transcription := transcription);
        var clears := s.hasAudioChunk && !s.botRecordsAsyncChunks;
        match transcription
        case None => Effects(saved, clears, [], Crashed, false)
        case Some(t) =>
          var webhooks := if t.HasText() && !s.isAsync then [TranscriptUpdate(t)] else [];
          Effects(saved, clears, webhooks, Done, !s.isAsync)
  }

  /**
   * A failure dictionary without a reason but with some other entry is truthy
   * and not retryable: it is stored at once as a terminal failure and the
   * audio is kept.
   */
  lemma ReasonlessFailureIsTerminal(r: UtteranceRecord, s: Setting, adapter: AdapterResult, f: FailureData)
    requires Attempts(r) && !s.provider.UnknownProvider?
    requires adapter.Returned? && adapter.failure == Some(f)
    requires f.reason.None? && (f.error.Some? || f.otherKeys)
    ensures var e := TaskEffects(r, s, adapter);
      && e.outcome == Failed(f)
      && e.record.failureData == Some(f)
      && e.record.audioBlob == r.audioBlob
      && e.webhooks == []
  {
  }

  /** Delivering the task once more after a terminal failure changes nothing. */
  lemma RedeliveryAfterFailure(r: UtteranceRecord, s: Setting, first: AdapterResult, again: AdapterResult)
    requires TaskEffects(r, s, first).outcome.Failed?
    ensures var r' := TaskEffects(r, s, first).record;
      TaskEffects(r', s, again) == Effects(r', false, [], Skipped, false)
  {
  }

  /** Delivering the task once more after a transcription was stored keeps it and fires no second webhook. */
  lemma RedeliveryAfterTranscription(r: UtteranceRecord, s: Setting, first: AdapterResult, again: AdapterResult)
    requires Attempts(r) && TaskEffects(r, s, first).outcome.Done?
    ensures var r' := TaskEffects(r, s, first).record;
      TaskEffects(r', s, again) == Effects(r', false, [], Done, !s.isAsync)
  {
  }

  /**
   * The task delivered once per element of `answers` to the same utterance,
   * each delivery seeing the record the previous one left; `answers[k]` is what
   * the adapter does if delivery `k` calls it.
   */
  function Deliveries(r: UtteranceRecord, s: Setting, answers: seq<AdapterResult>): (runs: seq<Effects>)
    ensures |runs| == |answers|
    decreases |answers|
  {
    if answers == [] then []
    else
      var e := TaskEffects(r, s, answers[0]);
      [e] + Deliveries(e.record, s, answers[1..])
  }

  /** The record delivery `k` starts from. */
  function Before(r: UtteranceRecord, runs: seq<Effects>, k: nat): UtteranceRecord
    requires k <= |runs|
  {
    if k == 0 then r else runs[k - 1].record
  }

  /** Each delivery runs the task body on the record the previous delivery left. */
  lemma {:induction false} DeliveriesStep(r: UtteranceRecord, s: Setting, answers: seq<AdapterResult>, k: nat)
    requires k < |answers|
    ensures var runs := Deliveries(r, s, answers);
      runs[k] == TaskEffects(Before(r, runs, k), s, answers[k])
    decreases k
  {
    if k > 0 {
      var e := TaskEffects(r, s, answers[0]);
      DeliveriesStep(e.record, s, answers[1..], k - 1);
    }
  }

  /** Along any sequence of deliveries the attempt count never decreases. */
  lemma {:induction false} AttemptCountNeverDecreases(r: UtteranceRecord, s: Setting, answers: seq<AdapterResult>, j: nat, k: nat)
    requires j <= k <= |answers|
    ensures var runs := Deliveries(r, s, answers);
      Before(r, runs, j).attemptCount <= Before(r, runs, k).attemptCount <= Before(r, runs, j).attemptCount + (k - j)
    decreases k - j
  {
    if j < k {
      AttemptCountNeverDecreases(r, s, answers, j, k - 1);
      DeliveriesStep(r, s, answers, k - 1);
    }
  }

  /** Once a delivery fails terminally, every later delivery is skipped and the record stays as that failure left it. */
  lemma {:induction false} FailureIsTerminal(r: UtteranceRecord, s: Setting, answers: seq<AdapterResult>, j: nat, k: nat)
    requires j < k < |answers|
    requires Deliveries(r, s, answers)[j].outcome.Failed?
    ensures var runs := Deliveries(r, s, answers);
      runs[k].outcome == Skipped && runs[k].record == runs[j].record && runs[k].webhooks == []
    decreases k - j
  {
    var runs := Deliveries(r, s, answers);
    DeliveriesStep(r, s, answers, j);
    DeliveriesStep(r, s, answers, k);
    if k > j + 1 {
      FailureIsTerminal(r, s, answers, j, k - 1);
    }
  }

  /** The number of deliveries that ended in the retry signal. */
  function RetryCount(runs: seq<Effects>): nat
    decreases |runs|
  {
    if runs == [] then 0 else (if runs[0].outcome.Retry? then 1 else 0) + RetryCount(runs[1..])
  }

  /** How many retry signals a record with this attempt count can still raise. */
  function RetryBudget(attemptCount: nat): nat {
    if attemptCount + 1 < MaxAttempts then MaxAttempts - 1 - attemptCount else 0
  }

  /** The task body raises the retry signal at most four times for one utterance, whatever the adapter answers. */
  lemma {:induction false} RetriesAreBounded(r: UtteranceRecord, s: Setting, answers: seq<AdapterResult>)
    ensures RetryCount(Deliveries(r, s, answers)) <= RetryBudget(r.attemptCount) <= MaxAttempts - 1
    decreases |answers|
  {
    if answers != [] {
      var e := TaskEffects(r, s, answers[0]);
      RetriesAreBounded(e.record, s, answers[1..]);
      assert Deliveries(r, s, answers)[1..] == Deliveries(e.record, s, answers[1..]);
    }
  }

  /** A record the task no longer attempts stays as it is under any further deliveries. */
  lemma {:induction false} SettledRecordIsStable(r: UtteranceRecord, s: Setting, answers: seq<AdapterResult>, k: nat)
    requires !Attempts(r) && k < |answers|
    ensures var runs := Deliveries(r, s, answers);
      runs[k].record == r && runs[k].webhooks == [] && !runs[k].clearsChunkAudio
    decreases k
  {
    if k > 0 {
      SettledRecordIsStable(r, s, answers[1..], k - 1);
    }
  }

  /** Across any sequence of deliveries to one utterance, at most one triggers a webhook. */
  lemma {:induction false} AtMostOneWebhook(r: UtteranceRecord, s: Setting, answers: seq<AdapterResult>, j: nat, k: nat)
    requires j < k < |answers|
    ensures var runs := Deliveries(r, s, answers);
      runs[j].webhooks == [] || runs[k].webhooks == []
  {
    var runs := Deliveries(r, s, answers);
    DeliveriesStep(r, s, answers, j);
    if runs[j].webhooks != [] {
      var settled := runs[j].record;
      assert !Attempts(settled);
      var rest := answers[j + 1..];
      DeliveriesSuffix(r, s, answers, j + 1);
      SettledRecordIsStable(settled, s, rest, k - j - 1);
    }
  }

  /** The deliveries after the first `m` are the deliveries of the remaining answers from the record the first `m` left. */
  lemma {:induction false} DeliveriesSuffix(r: UtteranceRecord, s: Setting, answers: seq<AdapterResult>, m: nat)
    requires 0 < m <= |answers|
    ensures var runs := Deliveries(r, s, answers);
      runs[m..] == Deliveries(runs[m - 1].record, s, answers[m..])
    decreases m
  {
    var e := TaskEffects(r, s, answers[0]);
    if m > 1 {
      DeliveriesSuffix(e.record, s, answers[1..], m - 1);
      assert answers[1..][m - 1..] == answers[m..];
    }
  }

  /** The number of utterances without a transcription: the `transcription__isnull=True` count. */
  function CountPending(ts: seq<Option<Transcription>>): (n: nat)
    ensures n <= |ts|
    decreases |ts|
  {
    if ts == [] then 0 else (if ts[0].None? then 1 else 0) + CountPending(ts[1..])
  }

  /** No utterance is pending exactly when every utterance has a transcription. */
  lemma {:induction false} NoPendingIff(ts: seq<Option<Transcription>>)
    ensures CountPending(ts) == 0 <==> forall i :: 0 <= i < |ts| ==> ts[i].Some?
    decreases |ts|
  {
    if ts != [] {
      NoPendingIff(ts[1..]);
      assert forall i :: 1 <= i < |ts| ==> ts[i] == ts[1..][i - 1];
    }
  }

  /**
   * The completion flag after the check of lines 106-108: it is set when the
   * recording is in a terminal state and no utterance is pending, and never unset.
   */
  function CompletionCheck(terminal: bool, complete: bool, ts: seq<Option<Transcription>>): (c: bool)
    ensures c <==> complete || (terminal && forall i :: 0 <= i < |ts| ==> ts[i].Some?)
  {
    NoPendingIff(ts);
    complete || (terminal && CountPending(ts) == 0)
  }

  /** As coded, an utterance that failed terminally keeps no transcription and so keeps its recording from completing. */
  lemma FailedUtteranceBlocksCompletion(terminal: bool, ts: seq<Option<Transcription>>, i: nat)
    requires i < |ts| && ts[i].None?
    ensures !CompletionCheck(terminal, false, ts)
  {
  }

  /** Running the check again leaves the flag as it is. */
  lemma CompletionCheckIdempotent(terminal: bool, complete: bool, ts: seq<Option<Transcription>>)
    ensures CompletionCheck(terminal, CompletionCheck(terminal, complete, ts), ts) == CompletionCheck(terminal, complete, ts)
  {
  }

  /**
   * Utterances of one recording transcribed one after another, `arrivals[k]`
   * giving the utterance index and transcription of the k-th, each followed by
   * the completion check; the result is the flag after each check.
   */
  function CompletionsInOrder(terminal: bool, complete: bool, ts: seq<Option<Transcription>>,
                              arrivals: seq<(nat, Transcription)>): (flags: seq<bool>)
    requires forall k :: 0 <= k < |arrivals| ==> arrivals[k].0 < |ts|
    ensures |flags| == |arrivals|
    decreases |arrivals|
  {
    if arrivals == [] then []
    else
      var ts' := ts[arrivals[0].0 := Some(arrivals[0].1)];
      var c := CompletionCheck(terminal, complete, ts');
      [c] + CompletionsInOrder(terminal, c, ts', arrivals[1..])
  }

  /**
   * `arrivals` transcribes each pending utterance of `ts` exactly once: every
   * index it names is in range and pending, no index comes twice, and every
   * pending index comes.
   */
  predicate PendingSchedule(ts: seq<Option<Transcription>>, arrivals: seq<(nat, Transcription)>) {
    && (forall k :: 0 <= k < |arrivals| ==> arrivals[k].0 < |ts| && ts[arrivals[k].0].None?)
    && (forall j, k :: 0 <= j < k < |arrivals| ==> arrivals[j].0 != arrivals[k].0)
    && (forall i :: 0 <= i < |ts| && ts[i].None? ==> exists k :: 0 <= k < |arrivals| && arrivals[k].0 == i)
  }

  /**
   * After the first arrival of a schedule, either nothing is pending (it was the
   * last), or the rest is a schedule of what is still pending.
   */
  lemma ScheduleStep(ts: seq<Option<Transcription>>, arrivals: seq<(nat, Transcription)>)
    requires PendingSchedule(ts, arrivals) && arrivals != []
    ensures var ts' := ts[arrivals[0].0 := Some(arrivals[0].1)];
      && (|arrivals| == 1 ==> forall i :: 0 <= i < |ts'| ==> ts'[i].Some?)
      && (|arrivals| > 1 ==> PendingSchedule(ts', arrivals[1..]) && ts'[arrivals[1].0].None?)
  {
    var i0 := arrivals[0].0;
    var ts' := ts[i0 := Some(arrivals[0].1)];
    var rest := arrivals[1..];
    if |arrivals| == 1 {
      assert forall k :: 0 <= k < |arrivals| ==> arrivals[k].0 == i0;
    } else {
      assert arrivals[1].0 != i0;
      forall k | 0 <= k < |rest|
        ensures rest[k].0 < |ts'| && ts'[rest[k].0].None?
      {
        assert rest[k] == arrivals[k + 1] && arrivals[k + 1].0 != i0;
      }
      forall j, k | 0 <= j < k < |rest| ensures rest[j].0 != rest[k].0 {
        assert rest[j] == arrivals[j + 1] && rest[k] == arrivals[k + 1];
      }
      forall i | 0 <= i < |ts'| && ts'[i].None?
        ensures exists k :: 0 <= k < |rest| && rest[k].0 == i
      {
        var k :| 0 <= k < |arrivals| && arrivals[k].0 == i;
        assert k != 0 && rest[k - 1] == arrivals[k];
      }
    }
  }

  /**
   * When the recording is already terminal and its pending utterances are
   * transcribed one at a time in any order, the completion flag becomes set
   * exactly at the last of them and not before.
   */
  lemma {:induction false} CompletesExactlyAtLast(ts: seq<Option<Transcription>>, arrivals: seq<(nat, Transcription)>)
    requires PendingSchedule(ts, arrivals)
    ensures var flags := CompletionsInOrder(true, false, ts, arrivals);
      forall k :: 0 <= k < |flags| ==> (flags[k] <==> k == |arrivals| - 1)
    decreases |arrivals|
  {
    if arrivals != [] {
      var ts' := ts[arrivals[0].0 := Some(arrivals[0].1)];
      var c := CompletionCheck(true, false, ts');
      var rest := arrivals[1..];
      assert CompletionsInOrder(true, false, ts, arrivals) == [c] + CompletionsInOrder(true, c, ts', rest);
      ScheduleStep(ts, arrivals);
      if rest == [] {
        assert c;
      } else {
        assert rest[0] == arrivals[1];
        assert !c;
        CompletesExactlyAtLast(ts', rest);
        var later := CompletionsInOrder(true, false, ts', rest);
        forall k | 1 <= k < |arrivals| ensures (([c] + later)[k] <==> k == |arrivals| - 1) {
          assert ([c] + later)[k] == later[k - 1];
        }
      }
    }
  }

  /** An audio chunk: a coarser container whose audio the task may clear. */
  class AudioChunk {
    var audioBlob: seq<byte>

    constructor (audioBlob: seq<byte>)
      ensures this.audioBlob == audioBlob
    {
      this.audioBlob := audioBlob;
    }
  }

  /** The bot a recording belongs to. */
  class Bot {
    /** `record_async_transcription_audio_chunks()`: keep chunk audio for a later async transcription. */
    const recordsAsyncTranscriptionAudioChunks: bool
    /** The transcript-update webhooks triggered for this bot, oldest first. */
    var webhookEvents: seq<WebhookEvent>

    constructor (recordsAsyncChunks: bool)
      ensures recordsAsyncTranscriptionAudioChunks == recordsAsyncChunks && webhookEvents == []
    {
      recordsAsyncTranscriptionAudioChunks := recordsAsyncChunks;
      webhookEvents := [];
    }
  }

  /** A recording: its utterances, whether its capture state is terminal, and its transcription-complete flag. */
  class Recording {
    const bot: Bot
    /** `RecordingManager.is_terminal_state(recording.state)`; the capture state machine is outside this model. */
    var stateIsTerminal: bool
    var transcriptionComplete: bool
    var utterances: seq<Utterance>

    constructor (bot: Bot, stateIsTerminal: bool)
      ensures this.bot == bot && this.stateIsTerminal == stateIsTerminal
      ensures !transcriptionComplete && utterances == []
    {
      this.bot := bot;
      this.stateIsTerminal := stateIsTerminal;
      transcriptionComplete := false;
      utterances := [];
    }

    /** Every utterance listed belongs to this recording, as `filter(recording=...)` selects them. */
    predicate Owns()
      reads this, utterances
    {
      forall v :: v in utterances ==> v.recording == this
    }

    /** The stored transcription of each utterance, in order. */
    function Transcriptions(): (ts: seq<Option<Transcription>>)
      reads this, utterances
      ensures |ts| == |utterances|
      ensures forall i :: 0 <= i < |utterances| ==> ts[i] == utterances[i].transcription
    {
      TranscriptionsOf(utterances)
    }

    /**
     * Lines 106-108: mark the recording's transcription complete when its state
     * is terminal and no utterance of it is left without a transcription.
     */
    method MaybeCompleteTranscription()
      modifies this
      ensures transcriptionComplete == CompletionCheck(stateIsTerminal, old(transcriptionComplete), Transcriptions())
      ensures stateIsTerminal == old(stateIsTerminal) && utterances == old(utterances)
    {
      if stateIsTerminal && CountPending(Transcriptions()) == 0 {
        transcriptionComplete := true;
      }
    }
  }

  /** The stored transcriptions of a sequence of utterances. */
  function TranscriptionsOf(us: seq<Utterance>): (ts: seq<Option<Transcription>>)
    reads us
    ensures |ts| == |us|
    ensures forall i :: 0 <= i < |us| ==> ts[i] == us[i].transcription
    decreases |us|
  {
    if us == [] then [] else [us[0].transcription] + TranscriptionsOf(us[1..])
  }

  /** One utterance: fixed links and settings, and the fields the task writes. */
  class Utterance {
    const recording: Recording
    const provider: Provider
    const audioChunk: AudioChunk?
    /** `async_transcription is not None`. */
    const isAsync: bool
    var transcription: Option<Transcription>
    var failureData: Option<FailureData>
    var attemptCount: nat
    var audioBlob: seq<byte>

    constructor (recording: Recording, provider: Provider, audioChunk: AudioChunk?, isAsync: bool, audioBlob: seq<byte>)
      ensures this.recording == recording && this.provider == provider
      ensures this.audioChunk == audioChunk && this.isAsync == isAsync
      ensures Record() == UtteranceRecord(None, None, 0, audioBlob)
    {
      this.recording := recording;
      this.provider := provider;
      this.audioChunk := audioChunk;
      this.isAsync := isAsync;
      this.audioBlob := audioBlob;
      transcription := None;
      failureData := None;
      attemptCount := 0;
    }

    /** The fields the task writes, as a value. */
    function Record(): UtteranceRecord
      reads this
    {
      UtteranceRecord(transcription, failureData, attemptCount, audioBlob)
    }

    /** What the task reads but never writes. */
    function TaskSetting(): Setting {
      Setting(provider, audioChunk != null, recording.bot.recordsAsyncTranscriptionAudioChunks, isAsync)
    }

    /** The objects the task may write besides the utterance itself. */
    function Collaborators(): set<object> {
      {recording, recording.bot} + (if audioChunk == null then {} else {audioChunk})
    }
  }

  /**
   * `process_utterance`: the task body for one delivery. `adapter` is what the
   * provider's adapter does if the body calls it.
   */
  method ProcessUtterance(u: Utterance, adapter: AdapterResult) returns (outcome: Outcome)
    requires u in u.recording.utterances && u.recording.Owns()
    modifies u, u.Collaborators()
    ensures var e := TaskEffects(old(u.Record()), u.TaskSetting(), adapter);
      && outcome == e.outcome
      && u.Record() == e.record
      && (u.audioChunk != null ==>
            u.audioChunk.audioBlob == if e.clearsChunkAudio then [] else old(u.audioChunk.audioBlob))
      && u.recording.bot.webhookEvents == old(u.recording.bot.webhookEvents) + e.webhooks
      && u.recording.transcriptionComplete ==
           if e.checksCompletion
           then CompletionCheck(u.recording.stateIsTerminal, old(u.recording.transcriptionComplete), u.recording.Transcriptions())
           else old(u.recording.transcriptionComplete)
    ensures u.recording.stateIsTerminal == old(u.recording.stateIsTerminal)
    ensures u.recording.utterances == old(u.recording.utterances) && u.recording.Owns()
  {
    var recording := u.recording;
    if IsSet(u.failureData) {
      return Skipped;
    }
    if u.transcription.None? {
      u.attemptCount := u.attemptCount + 1;
      var (transcription, failure) := GetTranscription(u.provider, adapter);
      if IsSet(failure) {
        if u.attemptCount < MaxAttempts && IsRetryableFailure(failure.value) {
          return Retry(failure.value);
        } else {
          u.failureData := failure;
          return Failed(failure.value);
        }
      }
      if u.audioBlob != [] {
        u.audioBlob := [];
      }
      if u.audioChunk != null && !recording.bot.recordsAsyncTranscriptionAudioChunks {
        u.audioChunk.audioBlob := [];
      }
      u.transcription := transcription;
      if transcription.None? {
        return Crashed;
      }
      if u.transcription.value.HasText() && !u.isAsync {
        recording.bot.webhookEvents := recording.bot.webhookEvents + [TranscriptUpdate(u.transcription.value)];
      }
    }
    if u.isAsync {
      return Done;
    }
    recording.MaybeCompleteTranscription();
    outcome := Done;
  }

  /**
   * Transcribing the last pending utterance of a recording in a terminal state:
   * a non-async utterance with text fires exactly one webhook and completes the
   * recording; an async one fires none and leaves the flag as it was.
   */
  method TranscribeLastPending(last: Utterance, t: Transcription) returns (outcome: Outcome)
    requires last.recording.stateIsTerminal && last in last.recording.utterances && last.recording.Owns()
    requires forall u :: u in last.recording.utterances && u != last ==> u.transcription.Some?
    requires last.Record().transcription.None? && last.Record().failureData.None?
    requires !last.provider.UnknownProvider? && t.HasText()
    modifies last, last.Collaborators()
    ensures outcome == Done
    ensures !last.isAsync ==>
      last.recording.transcriptionComplete &&
      last.recording.bot.webhookEvents == old(last.recording.bot.webhookEvents) + [TranscriptUpdate(t)]
    ensures last.isAsync ==>
      last.recording.transcriptionComplete == old(last.recording.transcriptionComplete) &&
      last.recording.bot.webhookEvents == old(last.recording.bot.webhookEvents)
  {
    var recording := last.recording;
    ghost var us := recording.utterances;
    outcome := ProcessUtterance(last, Returned(Some(t), None));
    assert last.transcription == Some(t);
    forall i | 0 <= i < |us| ensures us[i].transcription.Some? {
      if us[i] != last {
        assert us[i].transcription == old(us[i].transcription);
      }
    }
  }

  /**
   * An utterance on its fourth attempt that times out is retried with its count
   * at four; timing out again on the fifth attempt is terminal and keeps the
   * audio; a further delivery is skipped.
   */
  method TimeoutsUntilTerminal() returns (outcomes: seq<Outcome>, attemptCount: nat, audio: seq<byte>, failed: bool)
    ensures |outcomes| == 3 && outcomes[0].Retry? && outcomes[1].Failed? && outcomes[2] == Skipped
    ensures attemptCount == 5 && audio == [4, 2] && failed
  {
    var bot := new Bot(false);
    var recording := new Recording(bot, false);
    var u := new Utterance(recording, AssemblyAI, null, false, [4, 2]);
    recording.utterances := [u];
    u.attemptCount := 3;
    var timedOut := Returned(None, Some(FailureData(Some(TimedOut), None, false)));
    var first := ProcessUtterance(u, timedOut);
    assert u.attemptCount == 4 && u.failureData == None;
    var second := ProcessUtterance(u, timedOut);
    var third := ProcessUtterance(u, Returned(Some(Transcription(Some("late"))), None));
    outcomes := [first, second, third];
    attemptCount, audio, failed := u.attemptCount, u.audioBlob, IsSet(u.failureData);
  }
}

=== FILE: strings.dfy ===
/**
 * Text helpers used by the pod creator: Python's `str.split` on a one-character
 * separator with its inverse `join`, and the decimal rendering `str(n)` of an
 * integer with its inverse parse.
 */
module Strings {

  /** `s.split(sep)`: the runs between separators, in order, empty runs included. */
  function Split(s: string, sep: char): (parts: seq<string>)
    ensures |parts| >= 1
    ensures forall i :: 0 <= i < |parts| ==> sep !in parts[i]
    decreases |s|
  {
    if s == [] then [""]
    else
      var rest := Split(s[1..], sep);
      if s[0] == sep then [""] + rest
      else [[s[0]] + rest[0]] + rest[1..]
  }

  /** `sep.join(parts)`. */
  function Join(parts: seq<string>, sep: char): string
    requires |parts| >= 1
    decreases |parts|
  {
    if |parts| == 1 then parts[0] else parts[0] + [sep] + Join(parts[1..], sep)
  }

  /** Joining the parts of a split gives back the original string. */
  lemma {:induction false} JoinSplit(s: string, sep: char)
    ensures Join(Split(s, sep), sep) == s
    decreases |s|
  {
    if s != [] {
      var rest := Split(s[1..], sep);
      JoinSplit(s[1..], sep);
      if s[0] == sep {
        assert ([""] + rest)[1..] == rest;
      } else if |rest| > 1 {
        var parts := [[s[0]] + rest[0]] + rest[1..];
        assert parts[1..] == rest[1..];
        assert Join(rest, sep) == rest[0] + [sep] + Join(rest[1..], sep);
        assert s == [s[0]] + s[1..];
      } else {
        assert s == [s[0]] + s[1..];
      }
    }
  }

  /** A string without the separator splits into itself alone. */
  lemma {:induction false} SplitWithoutSeparator(s: string, sep: char)
    requires sep !in s
    ensures Split(s, sep) == [s]
    decreases |s|
  {
    if s != [] {
      assert sep !in s[1..] by {
        forall i | 0 <= i < |s[1..]| ensures s[1..][i] != sep { assert s[1..][i] == s[i + 1]; }
      }
      SplitWithoutSeparator(s[1..], sep);
      assert [s[0]] + s[1..] == s;
    }
  }

  /** A separator-free prefix followed by a separator becomes a part of its own. */
  lemma {:induction false} SplitAfterPart(p: string, t: string, sep: char)
    requires sep !in p
    ensures Split(p + [sep] + t, sep) == [p] + Split(t, sep)
    decreases |p|
  {
    if p == [] {
      assert p + [sep] + t == [sep] + t;
      assert ([sep] + t)[1..] == t;
    } else {
      var s := p + [sep] + t;
      assert s[1..] == p[1..] + [sep] + t;
      assert sep !in p[1..] by {
        forall i | 0 <= i < |p[1..]| ensures p[1..][i] != sep { assert p[1..][i] == p[i + 1]; }
      }
      SplitAfterPart(p[1..], t, sep);
      assert [p[0]] + p[1..] == p;
    }
  }

  /** Splitting a join of separator-free parts gives back the parts. */
  lemma {:induction false} SplitJoin(parts: seq<string>, sep: char)
    requires |parts| >= 1
    requires forall i :: 0 <= i < |parts| ==> sep !in parts[i]
    ensures Split(Join(parts, sep), sep) == parts
    decreases |parts|
  {
    if |parts| == 1 {
      SplitWithoutSeparator(parts[0], sep);
    } else {
      SplitJoin(parts[1..], sep);
      SplitAfterPart(parts[0], Join(parts[1..], sep), sep);
      assert [parts[0]] + parts[1..] == parts;
    }
  }

  /** `s.split(sep)[-1]`: the last part of the split. */
  function LastPart(s: string, sep: char): string {
    var parts := Split(s, sep);
    parts[|parts| - 1]
  }

  /**
   * The last part is the longest separator-free suffix: it ends `s`, holds no
   * separator, and is either all of `s` or preceded by a separator.
   */
  lemma {:induction false} LastPartIsLongestSuffix(s: string, sep: char)
    ensures var last := LastPart(s, sep);
      |last| <= |s| && s[|s| - |last|..] == last && sep !in last &&
      (|last| < |s| ==> s[|s| - |last| - 1] == sep)
    decreases |s|
  {
    var last := LastPart(s, sep);
    if s != [] {
      var tail := s[1..];
      var rest := Split(tail, sep);
      LastPartIsLongestSuffix(tail, sep);
      var tailLast := LastPart(tail, sep);
      if s[0] != sep && |rest| == 1 {
        JoinSplit(tail, sep);
        assert last == [s[0]] + rest[0];
        assert s == [s[0]] + tail;
      } else {
        assert last == tailLast;
        if |tailLast| == |tail| {
          assert tailLast == tail;
          if s[0] != sep {
            assert sep !in tail;
            SplitWithoutSeparator(tail, sep);
            assert false;
          }
        }
        assert s[|s| - |last|..] == tail[|tail| - |tailLast|..];
      }
    }
  }

  /** A string without the separator is its own last part. */
  lemma LastPartWithoutSeparator(s: string, sep: char)
    requires sep !in s
    ensures LastPart(s, sep) == s
  {
    SplitWithoutSeparator(s, sep);
  }

  /** The character for a decimal digit. */
  function DigitChar(d: nat): (c: char)
    requires d < 10
    ensures '0' <= c <= '9'
  {
    "0123456789"[d]
  }

  /** The value of a decimal digit character. */
  function DigitValue(c: char): (d: nat)
    requires '0' <= c <= '9'
    ensures d < 10
  {
    (c as int) - ('0' as int)
  }

  /** True when every character is a decimal digit. */
  predicate IsDigits(s: string) {
    forall i :: 0 <= i < |s| ==> '0' <= s[i] <= '9'
  }

  /** Python's `str(n)` for a natural number: decimal digits, no leading zero. */
  function NatToString(n: nat): (s: string)
    ensures 1 <= |s| && IsDigits(s)
    ensures s[0] == '0' ==> n == 0
    decreases n
  {
    if n < 10 then [DigitChar(n)] else NatToString(n / 10) + [DigitChar(n % 10)]
  }

  /** The value of a string of decimal digits, the inverse of `NatToString` (the empty string reads as 0). */
  function ParseDigits(s: string): nat
    requires IsDigits(s)
    decreases |s|
  {
    if s == [] then 0 else ParseDigits(s[..|s| - 1]) * 10 + DigitValue(s[|s| - 1])
  }

  /** Parsing a rendered natural number gives it back. */
  lemma {:induction false} ParseNatToString(n: nat)
    ensures ParseDigits(NatToString(n)) == n
    decreases n
  {
    var s := NatToString(n);
    if n >= 10 {
      ParseNatToString(n / 10);
      assert s[..|s| - 1] == NatToString(n / 10);
    }
  }

  /** Python's `str(n)` for any integer: a minus sign before the digits of a negative number. */
  function IntToString(n: int): string {
    if n < 0 then "-" + NatToString(-n) else NatToString(n)
  }

  /** Distinct naturals render as distinct strings. */
  lemma NatToStringInjective(a: nat, b: nat)
    requires NatToString(a) == NatToString(b)
    ensures a == b
  {
    ParseNatToString(a);
    ParseNatToString(b);
  }

  /** A rendered integer starts with a minus sign exactly when it is negative. */
  lemma RenderedSign(n: int)
    ensures |IntToString(n)| >= 1 && (IntToString(n)[0] == '-' <==> n < 0)
  {
    if n >= 0 {
      assert '0' <= NatToString(n)[0] <= '9';
    }
  }

  /** Distinct integers render as distinct strings. */
  lemma IntToStringInjective(a: int, b: int)
    requires IntToString(a) == IntToString(b)
    ensures a == b
  {
    RenderedSign(a);
    RenderedSign(b);
    if a < 0 {
      assert IntToString(a)[1..] == NatToString(-a);
      assert IntToString(b)[1..] == NatToString(-b);
      NatToStringInjective(-a, -b);
    } else {
      NatToStringInjective(a, b);
    }
  }
}

=== FILE: wrappers.dfy ===
/** Option and Result: Python's None-or-value and raise-or-return, as values. */
module Wrappers {

  /** A value that may be absent (Python's `None`). */
  datatype Option<+T> = None | Some(value: T) {

    /** The value, or `default` when absent: `os.getenv(name, default)` and `x or default` for non-None `x`. */
    function GetOr(default: T): T {
      match this
      case Some(v) => v
      case None => default
    }
  }

  /** The result of an operation that either returns a value or raises an error. */
  datatype Result<+R, +E> = Success(value: R) | Failure(error: E)
}
